=== FILE: README.md ===
# Flight reservation backend and click heatmap — Dafny model

This project models the core logic of a flight-reservation backend and
of the small script that turns recorded page clicks into a heatmap:

- **Request schemas** (`Schemas`): the password policy, the length and
  pattern constraints on user, flight, reservation, ticket, payment and
  promotion requests, the airport-code and arrival-time validators, and the
  default status strings. Fields are checked as pydantic checks them:
  `min_length`, then `max_length`, then `pattern`, one error per field,
  fields in declaration order, a field's own validator only after its
  constraints passed and seeing only earlier fields that validated.
- **Endpoints over an in-memory store** (`Store`, `Auth`, `Queries`,
  `Booking`): the database is a value `Db` holding one sequence of rows per
  table in storage order. `hash_password`/`verify_password` use an
  uninterpreted digest function. The endpoints that write —
  `register_user`, `create_reservation` (with its handler body `Book`) and
  `create_ticket` — return the store they leave behind together with their
  answer, so "nothing changes on error" is a stated property; the reading
  endpoints `authenticate_user`, `read_flights`, `read_passengers` and
  `read_airports` are functions of the store.
  Paging follows SQLite, the backend's database: a negative offset counts
  as zero and a negative limit means no limit.
- **Heatmap binning** (`Heatmap`): selection of the click rows of the
  interaction log and the counting loop over a 1080 × 1920 grid, and the
  two composed as the script's entry point does.

`Outcomes` holds `Option`/`Result`, `Text` the character classes and the
whole-string scans, `Rows` the table operations the ORM queries reduce to
(first match, filter, count, offset/limit).

The reservation endpoint flips one seat row to unavailable but never
updates the flight's `available_seats` counter, so a rule "available seats
plus reserved seat rows equals total seats" does not survive a booking; the
model follows the code and `Booking.BookingUnbalancesFlight` proves the
drift. Likewise the flight schema has no bound between available and total
seats (`Schemas.AvailableMayExceedTotal`).

Nothing here is executed; every property below is proved by Dafny.

## Model

| member | source | states |
|---|---|---|
| `Text.Contains` | Backend/schemas.py:23-28 | a one-class `re.search` finds a match exactly when some character of the string is in the class |
| `Text.UpperAsciiIdempotent` | Backend/schemas.py:49 | upper-casing a string twice gives the same string as upper-casing it once |
| `Schemas.CheckStr` | Backend/schemas.py:37-39 | a constrained string field is accepted exactly when it meets its length bounds and pattern; a short value is always reported as too short, and a pattern mismatch only for values within the length bounds |
| `Schemas.ValidatePassword` | Backend/schemas.py:18-29 | accepts exactly the strings of at least 8 characters with an upper-case letter, a lower-case letter and a digit, returning them unchanged; otherwise names the first broken rule in the order length, upper-case, lower-case, digit |
| `Schemas.CheckPassword` | Backend/schemas.py:16-29 | the password field accepts exactly 8 to 100 characters with an upper-case letter, a lower-case letter and a digit; short and long values are refused by the field bounds, so the validator's own length message is never produced |
| `Schemas.ValidateUserCreate` | Backend/schemas.py:11-16 | a registration request is accepted exactly when the username has 3 to 50 characters and the password is accepted, and is then passed on unchanged |
| `Schemas.ValidateAirportCode` | Backend/schemas.py:46-49 | an airport code is accepted exactly when it is three upper-case letters, and the upper-casing validator then returns it unchanged; otherwise the first broken field rule is reported |
| `Schemas.AirportCodeIdempotent` | Backend/schemas.py:38-49 | validating an accepted airport code again gives the same result |
| `Schemas.ValidateArrival` | Backend/schemas.py:51-56 | the arrival time is accepted exactly when no validated departure exists or the arrival is strictly later, and is refused with "Arrival must be after departure" otherwise |
| `Schemas.ValidateFlight` | Backend/schemas.py:36-56 | a flight request is accepted exactly when the flight number is 2 to 10 letters or digits, both codes are three upper-case letters, both times parse with arrival strictly later, total seats are positive and available seats are not negative; accepted fields pass through unchanged |
| `Schemas.ArrivalNotAfterDepartureRejected` | Backend/schemas.py:51-56 | an arrival equal to or before a validated departure makes the flight request fail with the arrival message among its errors |
| `Schemas.ArrivalCheckNeedsDeparture` | Backend/schemas.py:54 | when the departure time did not validate, no arrival-ordering error is raised and the departure field is reported instead |
| `Schemas.AvailableMayExceedTotal` | Backend/schemas.py:42-43 | a flight with more available seats than total seats is accepted |
| `Schemas.ValidateReservation` | Backend/schemas.py:87-94 | a reservation request is accepted exactly when its seat number is digits followed by one upper-case letter; an omitted status becomes "Pending" and the other fields pass through |
| `Schemas.ValidateTicket` | Backend/schemas.py:104-115 | a ticket request is accepted exactly when its class is economy, premium economy, business or first, and refused otherwise with the class field's error alone; an omitted status becomes "active" and every other field, including the changeable and refundable flags and the promotion id, passes through unchanged |
| `Schemas.ValidatePayment` | Backend/schemas.py:125-133 | a payment request is accepted exactly when the amount is positive, the method is one of credit card, debit card, bank transfer, cash and the currency has 3 characters; an omitted status becomes "pending" and every other field, the transaction id included, passes through unchanged |
| `Schemas.ValidatePromotion` | Backend/schemas.py:176-186 | a promotion request is accepted exactly when the discount percentage lies in [0, 100], both dates parse, the minimum purchase and maximum discount are not negative and the usage limit is positive; every field passes through unchanged, the parsed dates in their own places |
| `Auth.HashPassword` | Backend/main.py:64-74 | a non-empty salt is returned unchanged, a missing or empty one is replaced by the fresh token; the returned salt is never empty and the digest is the digest under the returned salt |
| `Auth.VerifyPassword` | Backend/main.py:76-79 | verification succeeds exactly when the plain password's digest under the salt equals the stored digest; with an empty salt it compares against a digest under a freshly drawn salt |
| `Auth.HashThenVerify` | Backend/main.py:64-79 | hashing a password and verifying it with the returned digest and salt always succeeds |
| `Auth.OnlyTheHashedPasswordVerifies` | Backend/main.py:76-79 | a password verifies against the digest of another exactly when their digests under the salt coincide, so any password with a different digest is refused |
| `Auth.PasswordMatchesIsVerify` | Backend/main.py:102 | the stored-user password check agrees with `verify_password` for every non-empty stored salt |
| `Auth.Authenticate` | Backend/main.py:94-104 | the user returned is the first user whose username is the login, or, only when no username matches, the first whose email is; it is returned exactly when its password checks, and nothing is returned otherwise |
| `Auth.RegisterUser` | Backend/main.py:183-247 | registration succeeds exactly when the body is valid, the username and the email are not taken and the commit succeeds; otherwise the refusal is, in this order, invalid request (422), taken username, taken email or failed commit (400), and the store is unchanged; success appends exactly one user with the requested username and email whose password checks |
| `Auth.RegisterRefusalAnswers` | Backend/main.py:194-210 | a refused registration is answered 422 when the body is invalid and 400 otherwise; the taken username and taken email carry the re-raised texts "400: Username already registered" and "400: Email already registered" (main.py:240-247) |
| `Auth.RegisterKeepsAccountsUnique` | Backend/main.py:190-210 | registration keeps usernames unique and emails unique |
| `Auth.RegisterThenAuthenticate` | Backend/main.py:212-224 | right after a successful registration, logging in with that username and password returns the new user |
| `Rows.First` | Backend/main.py:323-325 | `.filter(...).first()` yields the first matching row, and nothing exactly when no row matches |
| `Rows.Filter` | Backend/main.py:279-286 | a filtered query returns exactly the rows that match, no more rows than the table holds |
| `Rows.FilterAppend` | Backend/main.py:279-286 | filtering keeps the table order of the rows it keeps |
| `Rows.Page` | Backend/main.py:288 | offset/limit returns the rows from the offset on, in order, at most `limit` of them when the limit is not negative |
| `Rows.PagesTile` | Backend/main.py:288 | two consecutive pages together are the page of their combined size |
| `Queries.ReadFlights` | Backend/main.py:269-289 | the answer is the flights meeting every given filter, from the offset on (a negative offset counting as zero), in table order, `limit` of them or as many as remain, all that remain for a negative limit; every flight returned is stored and has the given departure code, the given destination code and a departure no earlier than the given date |
| `Queries.EmptyFilterIgnored` | Backend/main.py:281-284 | an empty departure or destination code filter gives the same answer as no filter |
| `Queries.FlightPagesTile` | Backend/main.py:288 | paging through the flights visits the matching flights in order without gaps or repeats |
| `Queries.ReadPassengers` | Backend/main.py:304-312 | the answer is the stored passengers from the offset on, in table order, `limit` of them or as many as remain, all that remain for a negative limit |
| `Queries.PassengerPagesTile` | Backend/main.py:311 | paging through the passengers visits them in order without gaps or repeats |
| `Queries.ReadAirports` | Backend/main.py:386-398 | the answer is the airports of the given country (all airports when none or an empty code is given) from the offset on, in table order, `limit` of them or as many as remain, all that remain for a negative limit; every airport returned is stored and in the given country |
| `Queries.EmptyCountryIgnored` | Backend/main.py:394-395 | an empty country code gives the same answer as none |
| `Queries.AirportPagesTile` | Backend/main.py:397 | paging through the airports visits the matching airports in order without gaps or repeats |
| `Queries.DefaultPage` | Backend/main.py:269-273 | with the default paging (offset 0, limit 100) each listing returns every matching row in table order when there are at most 100 of them, and otherwise exactly the first 100 |
| `Booking.Book` | Backend/main.py:321-350 | once logged in, refusals come in the order missing flight (404), missing passenger (404), no available seat row (400), each exactly when its condition holds and changing nothing; success appends one reservation with the requested fields and makes exactly the first available matching seat row unavailable, leaving every other table and the flights' seat counters unchanged |
| `Booking.CreateReservation` | Backend/main.py:315-320 | the login dependency runs first: the request is refused with 401 exactly when the credentials do not authenticate, changing nothing, and otherwise the answer is the handler's |
| `Booking.ReservationRefusalAnswers` | Backend/main.py:326-343 | the refusals of a reservation request are answered 401 "Incorrect username or password", 404 "Flight not found", 404 "Passenger not found" and 400 "Seat not available", each under its condition |
| `Booking.TakingSeatConserves` | Backend/main.py:345-347 | making the first open row of a seat unavailable while appending one reservation for it keeps, for every seat, reservations plus open rows unchanged |
| `Booking.BookConservesSeats` | Backend/main.py:336-349 | for any seat, reservations held plus open seat rows is the same before and after any booking, successful or not |
| `Booking.ReservationConservesSeats` | Backend/main.py:315-349 | the same conservation for the whole endpoint, refused logins included |
| `Booking.SeatGoneRefused` | Backend/main.py:336-343 | a booking of a seat with no open row left fails, with 400 "Seat not available" once the flight and passenger exist |
| `Booking.SecondBookingRefused` | Backend/main.py:337-343 | after the only open row of a seat is booked, a second booking of that seat fails, with 400 "Seat not available" when its passenger exists |
| `Booking.NoOverbooking` | Backend/main.py:315-349 | after any sequence of reservation requests, the reservations for a seat never exceed the earlier reservations plus the seat rows open at the start |
| `Booking.BookingUnbalancesFlight` | Backend/main.py:345-349 | a successful booking reserves one more seat row of the flight while the flight row is unchanged, so a flight whose available-seat counter matched its seat rows no longer does |
| `Booking.CreateTicket` | Backend/main.py:353-370 | a ticket request is refused with 404 "Reservation not found" exactly when no reservation has its id, leaving the store unchanged; otherwise one ticket with the requested fields is appended and nothing else changes |
| `Booking.TicketRefusalAnswer` | Backend/main.py:359-364 | a ticket for an unknown reservation is answered 404 "Reservation not found" |
| `Booking.TicketForNewReservation` | Backend/main.py:359-366 | a ticket for a reservation that was just made is accepted |
| `Heatmap.FetchClicks` | server/scripts/generate-heatmap.py:12-18 | one click is fetched for each row whose event is "click", and a coordinate pair is fetched exactly when some click row carries it |
| `Heatmap.FetchClicksAppend` | server/scripts/generate-heatmap.py:15-16 | the clicks of a log made of two parts are the clicks of the first part followed by those of the second, so table order is kept |
| `Heatmap.OtherEventsIgnored` | server/scripts/generate-heatmap.py:15 | rows of other events do not change the fetched clicks |
| `Heatmap.BinClicks` | server/scripts/generate-heatmap.py:20-29 | the grid has 1080 rows and 1920 columns and each cell holds the number of clicks that pass the bounds test and whose truncated `y` and `x` are that row and column |
| `Heatmap.OneClickOneCell` | server/scripts/generate-heatmap.py:28-29 | one more click adds one to exactly the cell it lands in, and an out-of-bounds click changes no cell |
| `Heatmap.GridTotalCountsInBounds` | server/scripts/generate-heatmap.py:27-29 | the cells of the grid add up to the number of clicks inside the grid |
| `Heatmap.ClicksLandAsLogged` | server/scripts/generate-heatmap.py:39-41 | the count a cell receives from the fetched clicks is the number of click rows of the log that land in it |
| `Heatmap.HeatmapOfLog` | server/scripts/generate-heatmap.py:39-41 | fetching and binning a log gives a 1080 × 1920 grid whose every cell holds the number of click rows of the log that land in it |

## Left out

- `Schemas.ValidatePassword`: treats only ASCII `0`–`9` as digits, while Python's `\d` on a `str` also matches other Unicode decimal digits, so passwords whose only digits are non-ASCII are refused by the model and accepted by the source.
- `Schemas.CheckPassword`: inherits the ASCII-only digit class of `Schemas.ValidatePassword`.
- `Schemas.ValidateUserCreate`: inherits the ASCII-only digit class of `Schemas.ValidatePassword` through the password field.
- `Text.UpperAsciiIdempotent`: models `str.upper()` on ASCII only; the validator runs after the `^[A-Z]{3}$` pattern, so only ASCII upper-case letters ever reach it.
- `Schemas.ValidateUserCreate`: email validation (`EmailStr`) and its normalisation are library code and are not checked; emails are compared as given.
- The `models` module (ORM entities, their constructors, pricing, promotion, luggage and loyalty logic) is not part of this model. The stored-user password check is modelled as recomputing the digest under the stored salt, matching `verify_password`.
- PBKDF2, hex encoding, `secrets.token_hex` and `compare_digest` are foreign crypto: the digest is an uninterpreted function parameter, the random salt a parameter, and constant-time comparison is plain equality.
- JWT issue and decoding, token expiry, `/token`, `/verify-token` and `/users/me/` are left out beyond the login decision of `authenticate_user`.
- `create_flight` (behind the same login check as `create_reservation`, stamping the caller's id on the flight), `create_passenger` and `create_payment` insert a validated request without existence checks; only their request validation is modelled (`PassengerCreate` is not).
- Request bodies reach the handlers already validated; for `create_reservation` the login check is modelled as the first check and the framework's 422 for a bad body is not.
- Row ids and creation timestamps are assigned by the database and are parameters.
- A failing commit in `register_user` is a boolean parameter; the text of the database error it then reports is not modelled. The detail of a refused request body (its list of field errors) is not modelled either.
- `Auth.RegisterUser`: assumes that the `models.User` constructor, which is not part of this model, stores the digest of the password under a fresh `token_hex` salt together with that salt (the behaviour Backend/tests.py:24-46 relies on); the success clauses about the stored salt and password, and `Auth.RegisterThenAuthenticate`, rest on this.
- `Booking.Book`: a failing commit (Backend/main.py:348) answers 500 and persists nothing; the model assumes the commit succeeds.
- `Booking.CreateTicket`: a failing commit (Backend/main.py:368) answers 500 and persists nothing; the model assumes the commit succeeds.
- `Queries.ReadFlights`: assumes every stored flight on the page satisfies the `FlightPublic` response schema; a row that does not makes the source answer 500, because the framework re-validates each returned row.
- `Queries.ReadPassengers`: assumes every stored passenger on the page satisfies `PassengerPublic`; otherwise the source answers 500.
- `Queries.ReadAirports`: assumes every stored airport on the page satisfies `AirportPublic` (a three-capital code, a 2-character country code, at least one terminal); no endpoint creates airports, so nothing else keeps them within those bounds, and a failing row makes the source answer 500.
- `Booking.Book`: assumes that the `models.Reservation` constructor (main.py:345), which is not part of this model, stores the request's fields unchanged; if it sets its own status or other fields, the stored reservation differs from the one the contract describes.
- `Booking.CreateTicket`: assumes that the `models.Ticket` constructor (main.py:366), which is not part of this model, stores the request's fields unchanged; if it sets its own status, prices, issue date or changeable/refundable flags, the stored ticket differs from the one the contract describes.
- `Booking.Book`: assumes the new reservation satisfies the `ReservationPublic` response schema; that check runs after the commit, so a failure would answer 500 with the reservation already stored.
- `Booking.CreateTicket`: assumes the new ticket satisfies the `TicketPublic` response schema, which is checked after the commit.
- `Queries.ReadFlights`: a `skip` or `limit` outside the signed 64-bit range cannot be bound as an SQLite parameter and makes the source answer 500; integers are unbounded in the model.
- `Queries.ReadPassengers`: a `skip` or `limit` outside the signed 64-bit range cannot be bound as an SQLite parameter and makes the source answer 500; integers are unbounded in the model.
- `Queries.ReadAirports`: a `skip` or `limit` outside the signed 64-bit range cannot be bound as an SQLite parameter and makes the source answer 500; integers are unbounded in the model.
- `Booking.Book`: a flight or passenger id outside the signed 64-bit range makes the source answer 500; the model answers 404.
- `Booking.CreateTicket`: a reservation id outside the signed 64-bit range makes the source answer 500; the model answers 404.
- Datetimes are integers: parsing, time zones and naive/aware comparison errors are not modelled. Decimals are reals; NaN and infinity are not modelled.
- Concurrent requests depend on the database's isolation and are not modelled; requests are handled one after another.
- Heatmap: the Gaussian blur, plotting and PNG output (floating point and I/O) are left out; cells are integers (the source's float cells count exactly at these sizes); rows with NULL or text coordinates, on which the source's comparisons raise an error, are not modelled.
- SQLite setup scripts, the Flask tracking route, the desktop/web front end and the backend's configuration and tests are outside the core.

=== FILE: auth.dfy ===
/** Password hashing, login and registration of the backend.

    PBKDF2-HMAC-SHA256 with its hex encoding is an uninterpreted
    deterministic function `Pbkdf2` of (password, salt), passed in by the
    caller. The random salt `secrets.token_hex(16)` would produce is a
    parameter `token`. */
module Auth {
  import opened Outcomes
  import opened Text
  import opened Rows
  import opened Schemas
  import opened Store

  /** The hex digest of a password under a salt. */
  type Pbkdf2 = (string, string) -> string

  /** What `secrets.token_hex(16)` returns: 32 lower-case hex digits. */
  predicate IsHexToken(t: string) {
    |t| == 32 && forall i :: 0 <= i < |t| ==> IsDigit(t[i]) || 'a' <= t[i] <= 'f'
  }

  /** `hash_password`: digests `password` under the given salt, or under
      the fresh `token` when the salt is missing or empty, and returns the
      digest with the salt used. */
  function HashPassword(pbkdf2: Pbkdf2, password: string, salt: Option<string>, token: string): (r: (string, string))
    requires IsHexToken(token)
    ensures salt.Some? && salt.value != "" ==> r.1 == salt.value
    ensures salt.None? || salt.value == "" ==> r.1 == token
    ensures r.1 != ""
    ensures r.0 == pbkdf2(password, r.1)
  {
    var used := if salt.Some? && salt.value != "" then salt.value else token;
    (pbkdf2(password, used), used)
  }

  /** `verify_password`: re-hashes the plain password under `salt` and
      compares digests. An empty salt makes `hash_password` draw a fresh
      one, so the comparison is then against a digest under `token`. */
  function VerifyPassword(pbkdf2: Pbkdf2, plain: string, hashed: string, salt: string, token: string): (ok: bool)
    requires IsHexToken(token)
    ensures salt != "" ==> (ok <==> pbkdf2(plain, salt) == hashed)
    ensures salt == "" ==> (ok <==> pbkdf2(plain, token) == hashed)
  {
    HashPassword(pbkdf2, plain, Some(salt), token).0 == hashed
  }

  /** Hashing then verifying with the returned salt always succeeds,
      whatever salt the verification would have drawn. */
  lemma HashThenVerify(pbkdf2: Pbkdf2, password: string, salt: Option<string>, token: string, later: string)
    requires IsHexToken(token) && IsHexToken(later)
    ensures var (hashed, used) := HashPassword(pbkdf2, password, salt, token);
            VerifyPassword(pbkdf2, password, hashed, used, later)
  {
  }

  /** A password verifies against another password's digest exactly when
      the two digests under that salt coincide: any password whose digest
      differs from the hashed one is refused. */
  lemma OnlyTheHashedPasswordVerifies(pbkdf2: Pbkdf2, password: string, other: string, salt: string, token: string)
    requires IsHexToken(token) && salt != ""
    ensures VerifyPassword(pbkdf2, other, HashPassword(pbkdf2, password, Some(salt), token).0, salt, token)
            <==> pbkdf2(other, salt) == pbkdf2(password, salt)
  {
  }

  /** The stored-user check `user.verify_password(password)`: the password's
      digest under the user's stored salt is the stored digest. */
  predicate PasswordMatches(pbkdf2: Pbkdf2, u: User, password: string) {
    pbkdf2(password, u.salt) == u.hashedPassword
  }

  /** For a stored user (whose salt is never empty) this is `verify_password`. */
  lemma PasswordMatchesIsVerify(pbkdf2: Pbkdf2, u: User, password: string, token: string)
    requires IsHexToken(token) && u.salt != ""
    ensures PasswordMatches(pbkdf2, u, password) == VerifyPassword(pbkdf2, password, u.hashedPassword, u.salt, token)
  {
  }

  ghost predicate UsernameRegistered(users: seq<User>, name: string) {
    exists i :: 0 <= i < |users| && users[i].username == name
  }

  ghost predicate EmailRegistered(users: seq<User>, email: string) {
    exists i :: 0 <= i < |users| && users[i].email == email
  }

  /** Row `i` is the user `authenticate_user` picks for `login`: the first
      user with that username, or, when no username matches, the first user
      with that email. */
  ghost predicate Picked(users: seq<User>, login: string, i: int) {
    && 0 <= i < |users|
    && if UsernameRegistered(users, login) then
         users[i].username == login && forall j :: 0 <= j < i ==> users[j].username != login
       else
         users[i].email == login && forall j :: 0 <= j < i ==> users[j].email != login
  }

  /** `authenticate_user`: looks the login up as a username first and as
      an email only when no username matches, then checks the password of
      the user found. A wrong password on the username match is final:
      a user whose email equals the login is not tried. */
  function Authenticate(users: seq<User>, pbkdf2: Pbkdf2, login: string, password: string): (r: Option<User>)
    ensures r.Some? ==> exists i :: Picked(users, login, i) && r.value == users[i]
    ensures r.Some? ==> PasswordMatches(pbkdf2, r.value, password)
    ensures r.None? <==> forall i :: Picked(users, login, i) ==> !PasswordMatches(pbkdf2, users[i], password)
  {
    var byName := First(users, (u: User) => u.username == login);
    var found := if byName.Some? then byName else First(users, (u: User) => u.email == login);
    match found
    case None => None
    case Some(i) =>
      assert Picked(users, login, i);
      assert forall j :: Picked(users, login, j) ==> j == i;
      if PasswordMatches(pbkdf2, users[i], password) then Some(users[i]) else None
  }

  /** `register_user`. A request the schema refuses is answered 422 before
      the handler runs. The handler refuses a taken username, then a taken
      email; `committed` says whether the database accepted the insert. On
      every refusal the session is rolled back and the store is unchanged;
      on success exactly one user, with a digest under a fresh salt, is
      appended. */
  function RegisterUser(db: Db, pbkdf2: Pbkdf2, req: UserCreate, token: string, committed: bool): (r: Reply<User>)
    requires IsHexToken(token)
    ensures r.result.Failure? ==> r.db == db
    ensures r.result.Failure? && r.result.error.InvalidRequest? <==> ValidateUserCreate(req).Failure?
    ensures r.result == Failure(UsernameTaken) <==>
              ValidateUserCreate(req).Success? && UsernameRegistered(db.users, req.username)
    ensures r.result == Failure(EmailTaken) <==>
              && ValidateUserCreate(req).Success? && !UsernameRegistered(db.users, req.username)
              && EmailRegistered(db.users, req.email)
    ensures r.result == Failure(StorageFailure) <==>
              && ValidateUserCreate(req).Success? && !UsernameRegistered(db.users, req.username)
              && !EmailRegistered(db.users, req.email) && !committed
    ensures r.result.Success? <==>
              && ValidateUserCreate(req).Success? && !UsernameRegistered(db.users, req.username)
              && !EmailRegistered(db.users, req.email) && committed
    ensures r.result.Failure? ==> r.result.error.InvalidRequest? || r.result.error in {UsernameTaken, EmailTaken, StorageFailure}
    ensures r.result.Success? ==> r.db == db.(users := db.users + [r.result.value])
    ensures r.result.Success? ==> && r.result.value.username == req.username
                                  && r.result.value.email == req.email
                                  && r.result.value.salt == token
                                  && PasswordMatches(pbkdf2, r.result.value, req.password)
  {
    match ValidateUserCreate(req)
    case Failure(errors) => Reply(db, Failure(InvalidRequest(errors)))
    case Success(_) =>
      if First(db.users, (u: User) => u.username == req.username).Some? then
        Reply(db, Failure(UsernameTaken))
      else if First(db.users, (u: User) => u.email == req.email).Some? then
        Reply(db, Failure(EmailTaken))
      else if !committed then
        Reply(db, Failure(StorageFailure))
      else
        var (hashed, salt) := HashPassword(pbkdf2, req.password, None, token);
        var user := User(req.username, req.email, hashed, salt);
        Reply(db.(users := db.users + [user]), Success(user))
  }

  ghost predicate UniqueUsernames(users: seq<User>) {
    forall i, j :: 0 <= i < j < |users| ==> users[i].username != users[j].username
  }

  ghost predicate UniqueEmails(users: seq<User>) {
    forall i, j :: 0 <= i < j < |users| ==> users[i].email != users[j].email
  }

  /** Registration keeps usernames and emails unique. */
  lemma RegisterKeepsAccountsUnique(db: Db, pbkdf2: Pbkdf2, req: UserCreate, token: string, committed: bool)
    requires IsHexToken(token)
    requires UniqueUsernames(db.users) && UniqueEmails(db.users)
    ensures UniqueUsernames(RegisterUser(db, pbkdf2, req, token, committed).db.users)
    ensures UniqueEmails(RegisterUser(db, pbkdf2, req, token, committed).db.users)
  {
  }

  /** The HTTP answer of a refused registration: 422 for a body the
      schema refuses, 400 for every refusal of the handler, and for the
      taken username or email the re-raised text with the status in front. */
  lemma RegisterRefusalAnswers(db: Db, pbkdf2: Pbkdf2, req: UserCreate, token: string, committed: bool)
    requires IsHexToken(token)
    ensures var r := RegisterUser(db, pbkdf2, req, token, committed);
            r.result.Failure? ==> StatusCode(r.result.error) == (if ValidateUserCreate(req).Failure? then 422 else 400)
    ensures var r := RegisterUser(db, pbkdf2, req, token, committed);
            ValidateUserCreate(req).Success? && UsernameRegistered(db.users, req.username) ==>
              Detail(r.result.error) == Some("400: Username already registered")
    ensures var r := RegisterUser(db, pbkdf2, req, token, committed);
            ValidateUserCreate(req).Success? && !UsernameRegistered(db.users, req.username)
            && EmailRegistered(db.users, req.email) ==>
              Detail(r.result.error) == Some("400: Email already registered")
  {
  }

  /** A user who just registered can log in with the username and
      password they registered with. */
  lemma RegisterThenAuthenticate(db: Db, pbkdf2: Pbkdf2, req: UserCreate, token: string, committed: bool)
    requires IsHexToken(token)
    requires RegisterUser(db, pbkdf2, req, token, committed).result.Success?
    ensures var r := RegisterUser(db, pbkdf2, req, token, committed);
            Authenticate(r.db.users, pbkdf2, req.username, req.password) == Some(r.result.value)
  {
    var r := RegisterUser(db, pbkdf2, req, token, committed);
    var users := r.db.users;
    var n := |db.users|;
    assert users[n] == r.result.value;
    assert Picked(users, req.username, n);
  }
}

=== FILE: booking.dfy ===
/** The booking endpoints: `create_reservation` (authenticated) and
    `create_ticket`. Each checks for the rows it refers to in a fixed
    order and writes nothing when a check fails. */
module Booking {
  import opened Outcomes
  import opened Rows
  import opened Schemas
  import opened Store
  import opened Auth

  ghost predicate HasFlight(db: Db, id: int) {
    exists i :: 0 <= i < |db.flights| && db.flights[i].id == id
  }

  ghost predicate HasPassenger(db: Db, id: int) {
    exists i :: 0 <= i < |db.passengers| && db.passengers[i].id == id
  }

  ghost predicate HasReservation(db: Db, id: int) {
    exists i :: 0 <= i < |db.reservations| && db.reservations[i].id == id
  }

  /** A seat row that can be booked as seat `number` of flight `flightId`. */
  predicate SeatOpen(s: Seat, flightId: int, number: string) {
    s.flightId == flightId && s.seatNumber == number && s.isAvailable
  }

  ghost predicate HasOpenSeat(db: Db, flightId: int, number: string) {
    exists i :: 0 <= i < |db.seats| && SeatOpen(db.seats[i], flightId, number)
  }

  /** `after` is `before` with exactly the first open row for seat `number`
      of flight `flightId` marked unavailable. */
  ghost predicate SeatTaken(before: seq<Seat>, after: seq<Seat>, flightId: int, number: string) {
    && |after| == |before|
    && exists k ::
         && 0 <= k < |before|
         && SeatOpen(before[k], flightId, number)
         && (forall j :: 0 <= j < k ==> !SeatOpen(before[j], flightId, number))
         && after[k] == before[k].(isAvailable := false)
         && (forall j :: 0 <= j < |before| && j != k ==> after[j] == before[j])
  }

  /** The body of `create_reservation`, once the caller has logged in:
      the flight must exist (404 "Flight not found"), then the passenger
      (404 "Passenger not found"), then an available seat row with the
      requested number on that flight (400 "Seat not available"). On
      success one reservation carrying the request's fields is appended and
      that seat row alone becomes unavailable; flights, including their
      `available_seats` counters, are not touched. `newId` and `now` are the
      id and creation time the database assigns. */
  function Book(db: Db, req: ReservationCreate, newId: int, now: int): (r: Reply<Reservation>)
    ensures r.result.Failure? ==> r.db == db
    ensures r.result == Failure(FlightNotFound) <==> !HasFlight(db, req.flightId)
    ensures r.result == Failure(PassengerNotFound) <==>
              HasFlight(db, req.flightId) && !HasPassenger(db, req.passengerId)
    ensures r.result == Failure(SeatNotAvailable) <==>
              && HasFlight(db, req.flightId) && HasPassenger(db, req.passengerId)
              && !HasOpenSeat(db, req.flightId, req.seatNumber)
    ensures r.result.Failure? ==> r.result.error in {FlightNotFound, PassengerNotFound, SeatNotAvailable}
    ensures r.result.Success? ==>
              r.result.value == Reservation(newId, req.passengerId, req.flightId, req.seatNumber,
                                            req.status, req.bookingAgentId, now)
    ensures r.result.Success? ==>
              && r.db.reservations == db.reservations + [r.result.value]
              && SeatTaken(db.seats, r.db.seats, req.flightId, req.seatNumber)
              && r.db.flights == db.flights && r.db.users == db.users
              && r.db.passengers == db.passengers && r.db.tickets == db.tickets
              && r.db.airports == db.airports
  {
    if First(db.flights, (f: Flight) => f.id == req.flightId).None? then
      Reply(db, Failure(FlightNotFound))
    else if First(db.passengers, (p: Passenger) => p.id == req.passengerId).None? then
      Reply(db, Failure(PassengerNotFound))
    else
      match First(db.seats, (s: Seat) => SeatOpen(s, req.flightId, req.seatNumber))
      case None => Reply(db, Failure(SeatNotAvailable))
      case Some(k) =>
        var reservation := Reservation(newId, req.passengerId, req.flightId, req.seatNumber,
                                       req.status, req.bookingAgentId, now);
        var seats := db.seats[k := db.seats[k].(isAvailable := false)];
        assert SeatTaken(db.seats, seats, req.flightId, req.seatNumber);
        Reply(db.(seats := seats, reservations := db.reservations + [reservation]), Success(reservation))
  }

  /** `create_reservation`: the login dependency runs first and refuses
      unknown users or wrong passwords with 401 "Incorrect username or
      password", changing nothing; a caller who logs in gets the handler's
      answer. */
  function CreateReservation(
    db: Db, pbkdf2: Pbkdf2, login: string, password: string,
    req: ReservationCreate, newId: int, now: int): (r: Reply<Reservation>)
    ensures r.result == Failure(BadCredentials) <==> Authenticate(db.users, pbkdf2, login, password).None?
    ensures r.result == Failure(BadCredentials) ==> r.db == db
    ensures Authenticate(db.users, pbkdf2, login, password).Some? ==> r == Book(db, req, newId, now)
  {
    if Authenticate(db.users, pbkdf2, login, password).None? then
      Reply(db, Failure(BadCredentials))
    else
      Book(db, req, newId, now)
  }

  /** The HTTP answer of a refused reservation request: 401 "Incorrect
      username or password" for a failed login, then 404 "Flight not
      found", 404 "Passenger not found" and 400 "Seat not available". */
  lemma ReservationRefusalAnswers(
    db: Db, pbkdf2: Pbkdf2, login: string, password: string,
    req: ReservationCreate, newId: int, now: int)
    ensures var r := CreateReservation(db, pbkdf2, login, password, req, newId, now);
            Authenticate(db.users, pbkdf2, login, password).None? ==>
              StatusCode(r.result.error) == 401 && Detail(r.result.error) == Some("Incorrect username or password")
    ensures var r := CreateReservation(db, pbkdf2, login, password, req, newId, now);
            Authenticate(db.users, pbkdf2, login, password).Some? && !HasFlight(db, req.flightId) ==>
              StatusCode(r.result.error) == 404 && Detail(r.result.error) == Some("Flight not found")
    ensures var r := CreateReservation(db, pbkdf2, login, password, req, newId, now);
            Authenticate(db.users, pbkdf2, login, password).Some? && HasFlight(db, req.flightId)
            && !HasPassenger(db, req.passengerId) ==>
              StatusCode(r.result.error) == 404 && Detail(r.result.error) == Some("Passenger not found")
    ensures var r := CreateReservation(db, pbkdf2, login, password, req, newId, now);
            Authenticate(db.users, pbkdf2, login, password).Some? && HasFlight(db, req.flightId)
            && HasPassenger(db, req.passengerId) && !HasOpenSeat(db, req.flightId, req.seatNumber) ==>
              StatusCode(r.result.error) == 400 && Detail(r.result.error) == Some("Seat not available")
  {
  }

  /** Seat rows that can still be booked as seat `number` of flight `flightId`. */
  function OpenSeats(seats: seq<Seat>, flightId: int, number: string): nat {
    Count(seats, (s: Seat) => SeatOpen(s, flightId, number))
  }

  /** Reservations held for seat `number` of flight `flightId`. */
  function Booked(reservations: seq<Reservation>, flightId: int, number: string): nat {
    Count(reservations, (x: Reservation) => x.flightId == flightId && x.seatNumber == number)
  }

  /** Taking one open seat row while recording one reservation for it
      keeps, for any seat, the sum of reservations and open rows. */
  lemma {:induction false} TakingSeatConserves(
    seats: seq<Seat>, seats': seq<Seat>, reservations: seq<Reservation>, x: Reservation,
    flightId: int, number: string)
    requires SeatTaken(seats, seats', x.flightId, x.seatNumber)
    ensures Booked(reservations + [x], flightId, number) + OpenSeats(seats', flightId, number)
            == Booked(reservations, flightId, number) + OpenSeats(seats, flightId, number)
  {
    var k :| && 0 <= k < |seats|
             && SeatOpen(seats[k], x.flightId, x.seatNumber)
             && seats'[k] == seats[k].(isAvailable := false)
             && (forall j :: 0 <= j < |seats| && j != k ==> seats'[j] == seats[j]);
    assert seats' == seats[k := seats[k].(isAvailable := false)];
    CountUpdate(seats, k, seats[k].(isAvailable := false), (s: Seat) => SeatOpen(s, flightId, number));
    CountAppend(reservations, x, (r: Reservation) => r.flightId == flightId && r.seatNumber == number);
  }

  /** Every booking, successful or not, keeps the sum of the reservations
      and the open seat rows for any one seat constant: a success trades
      exactly one open row for one reservation. */
  lemma BookConservesSeats(db: Db, req: ReservationCreate, newId: int, now: int, flightId: int, number: string)
    ensures var after := Book(db, req, newId, now).db;
            Booked(after.reservations, flightId, number) + OpenSeats(after.seats, flightId, number)
            == Booked(db.reservations, flightId, number) + OpenSeats(db.seats, flightId, number)
  {
    var r := Book(db, req, newId, now);
    if r.result.Success? {
      TakingSeatConserves(db.seats, r.db.seats, db.reservations, r.result.value, flightId, number);
    }
  }

  /** A seat with no open row left cannot be booked, and the refusal is
      400 "Seat not available" once the flight and passenger exist. */
  lemma SeatGoneRefused(db: Db, req: ReservationCreate, newId: int, now: int)
    requires OpenSeats(db.seats, req.flightId, req.seatNumber) == 0
    ensures Book(db, req, newId, now).result.Failure?
    ensures HasFlight(db, req.flightId) && HasPassenger(db, req.passengerId)
            ==> Book(db, req, newId, now).result == Failure(SeatNotAvailable)
  {
    var open := (s: Seat) => SeatOpen(s, req.flightId, req.seatNumber);
    assert forall i :: 0 <= i < |db.seats| ==> !open(db.seats[i]);
  }

  /** Once the only open row for a seat has been booked, a second booking
      of the same seat of the same flight is refused, with 400 "Seat not
      available" when its passenger exists. */
  lemma SecondBookingRefused(
    db: Db, req: ReservationCreate, newId: int, now: int, req2: ReservationCreate, newId2: int, now2: int)
    requires OpenSeats(db.seats, req.flightId, req.seatNumber) == 1
    requires req2.flightId == req.flightId && req2.seatNumber == req.seatNumber
    ensures var first := Book(db, req, newId, now);
            first.result.Success? ==>
              && Book(first.db, req2, newId2, now2).result.Failure?
              && (HasPassenger(db, req2.passengerId) ==> Book(first.db, req2, newId2, now2).result == Failure(SeatNotAvailable))
  {
    var first := Book(db, req, newId, now);
    if first.result.Success? {
      BookConservesSeats(db, req, newId, now, req.flightId, req.seatNumber);
      CountAppend(db.reservations, first.result.value,
                  (x: Reservation) => x.flightId == req.flightId && x.seatNumber == req.seatNumber);
      SeatGoneRefused(first.db, req2, newId2, now2);
    }
  }

  /** The conservation of `BookConservesSeats` for the whole endpoint:
      a refused login changes nothing. */
  lemma ReservationConservesSeats(
    db: Db, pbkdf2: Pbkdf2, login: string, password: string,
    req: ReservationCreate, newId: int, now: int, flightId: int, number: string)
    ensures var after := CreateReservation(db, pbkdf2, login, password, req, newId, now).db;
            Booked(after.reservations, flightId, number) + OpenSeats(after.seats, flightId, number)
            == Booked(db.reservations, flightId, number) + OpenSeats(db.seats, flightId, number)
  {
    BookConservesSeats(db, req, newId, now, flightId, number);
  }

  /** One booking request as the endpoint receives it. */
  datatype BookingRequest = BookingRequest(
    login: string, password: string, req: ReservationCreate, newId: int, now: int)

  /** The store after a sequence of booking requests handled one by one. */
  function Replay(db: Db, pbkdf2: Pbkdf2, requests: seq<BookingRequest>): Db
    decreases |requests|
  {
    if |requests| == 0 then db
    else
      var b := requests[0];
      Replay(CreateReservation(db, pbkdf2, b.login, b.password, b.req, b.newId, b.now).db, pbkdf2, requests[1..])
  }

  /** No overbooking: however many requests arrive one after another, the
      reservations made for a seat never exceed the seat rows that were
      open for it at the start. */
  lemma {:induction false} NoOverbooking(db: Db, pbkdf2: Pbkdf2, requests: seq<BookingRequest>, flightId: int, number: string)
    ensures var final := Replay(db, pbkdf2, requests);
            Booked(final.reservations, flightId, number) + OpenSeats(final.seats, flightId, number)
            == Booked(db.reservations, flightId, number) + OpenSeats(db.seats, flightId, number)
    ensures Booked(Replay(db, pbkdf2, requests).reservations, flightId, number)
            <= Booked(db.reservations, flightId, number) + OpenSeats(db.seats, flightId, number)
    decreases |requests|
  {
    if |requests| > 0 {
      var b := requests[0];
      ReservationConservesSeats(db, pbkdf2, b.login, b.password, b.req, b.newId, b.now, flightId, number);
      NoOverbooking(CreateReservation(db, pbkdf2, b.login, b.password, b.req, b.newId, b.now).db,
                    pbkdf2, requests[1..], flightId, number);
    }
  }

  /** Seat rows of flight `flightId` that are reserved. */
  function ReservedSeats(seats: seq<Seat>, flightId: int): nat {
    Count(seats, (s: Seat) => s.flightId == flightId && !s.isAvailable)
  }

  /** The accounting rule "available seats plus reserved seat rows equals
      total seats" for one flight row. */
  ghost predicate SeatsBalanced(db: Db, f: Flight) {
    f.availableSeats + ReservedSeats(db.seats, f.id) == f.totalSeats
  }

  /** A successful reservation reserves one more seat row of the flight
      while its `available_seats` counter stays as it was, so a flight
      whose counter agreed with its seat rows no longer does. */
  lemma BookingUnbalancesFlight(db: Db, req: ReservationCreate, newId: int, now: int, i: nat)
    requires i < |db.flights| && db.flights[i].id == req.flightId
    ensures var r := Book(db, req, newId, now);
            r.result.Success? ==>
              && r.db.flights[i] == db.flights[i]
              && ReservedSeats(r.db.seats, req.flightId) == ReservedSeats(db.seats, req.flightId) + 1
              && (SeatsBalanced(db, db.flights[i]) ==> !SeatsBalanced(r.db, r.db.flights[i]))
  {
    var r := Book(db, req, newId, now);
    if r.result.Failure? {
      return;
    }
    var k :| && 0 <= k < |db.seats|
             && SeatOpen(db.seats[k], req.flightId, req.seatNumber)
             && r.db.seats[k] == db.seats[k].(isAvailable := false)
             && (forall j :: 0 <= j < |db.seats| && j != k ==> r.db.seats[j] == db.seats[j]);
    assert r.db.seats == db.seats[k := db.seats[k].(isAvailable := false)];
    CountUpdate(db.seats, k, db.seats[k].(isAvailable := false),
                (s: Seat) => s.flightId == req.flightId && !s.isAvailable);
  }

  /** `create_ticket`: refused with 404 "Reservation not found" when no
      reservation has the requested id, the store unchanged; otherwise one
      ticket carrying the request's fields is appended and nothing else
      changes. */
  function CreateTicket(db: Db, req: TicketCreate, newId: int): (r: Reply<Ticket>)
    ensures r.result.Failure? <==> !HasReservation(db, req.reservationId)
    ensures r.result.Failure? ==> r.result.error == ReservationNotFound && r.db == db
    ensures r.result.Success? ==>
              && r.result.value == Ticket(newId, req.reservationId, req.passengerId, req.flightId,
                                          req.seatNumber, req.ticketClass, req.status,
                                          req.isChangeable, req.isRefundable, req.promotionId)
              && r.db == db.(tickets := db.tickets + [r.result.value])
  {
    if First(db.reservations, (x: Reservation) => x.id == req.reservationId).None? then
      Reply(db, Failure(ReservationNotFound))
    else
      var ticket := Ticket(newId, req.reservationId, req.passengerId, req.flightId,
                           req.seatNumber, req.ticketClass, req.status,
                           req.isChangeable, req.isRefundable, req.promotionId);
      Reply(db.(tickets := db.tickets + [ticket]), Success(ticket))
  }

  /** A ticket for a reservation that was just made is accepted. */
  lemma TicketForNewReservation(
    db: Db, req: ReservationCreate, newId: int, now: int, ticket: TicketCreate, ticketId: int)
    requires ticket.reservationId == newId
    ensures var r := Book(db, req, newId, now);
            r.result.Success? ==> CreateTicket(r.db, ticket, ticketId).result.Success?
  {
    var r := Book(db, req, newId, now);
    if r.result.Success? {
      assert r.db.reservations[|db.reservations|].id == newId;
    }
  }

  /** The HTTP answer of a refused ticket request: 404 "Reservation not
      found". */
  lemma TicketRefusalAnswer(db: Db, req: TicketCreate, newId: int)
    ensures var r := CreateTicket(db, req, newId);
            !HasReservation(db, req.reservationId) ==>
              StatusCode(r.result.error) == 404 && Detail(r.result.error) == Some("Reservation not found")
  {
  }
}

=== FILE: heatmap.dfy ===
/** The click heatmap: the click rows are read from the interaction log
    and counted into a 1080-row by 1920-column grid, row from `y` and
    column from `x`; clicks outside the grid are dropped. */
module Heatmap {
  import opened Rows

  const Width: nat := 1920
  const Height: nat := 1080

  /** One row of the `interactions` table. The columns are declared
      INTEGER, but the tracking route stores whatever JSON number it is
      sent and SQLite keeps a non-integral value as REAL, so coordinates
      are reals. */
  datatype Interaction = Interaction(event: string, x: real, y: real)

  datatype Click = Click(x: real, y: real)

  predicate IsClick(w: Interaction) {
    w.event == "click"
  }

  /** `fetch_data`: the coordinates of the rows whose event is "click", in
      table order, one click per such row. */
  function FetchClicks(rows: seq<Interaction>): (clicks: seq<Click>)
    ensures |clicks| == Count(rows, IsClick)
    ensures forall c :: c in clicks <==> exists i :: 0 <= i < |rows| && rows[i].event == "click" && c == Click(rows[i].x, rows[i].y)
  {
    if |rows| == 0 then []
    else
      var rest := FetchClicks(rows[1..]);
      assert forall i :: 1 <= i < |rows| ==> rows[i] == rows[1..][i - 1];
      if rows[0].event == "click" then [Click(rows[0].x, rows[0].y)] + rest else rest
  }

  /** Fetching a log made of two parts fetches the clicks of the first
      part followed by those of the second: the table order is kept. */
  lemma {:induction false} FetchClicksAppend(a: seq<Interaction>, b: seq<Interaction>)
    ensures FetchClicks(a + b) == FetchClicks(a) + FetchClicks(b)
  {
    if |a| > 0 {
      assert (a + b)[1..] == a[1..] + b;
      FetchClicksAppend(a[1..], b);
    } else {
      assert a + b == b;
    }
  }

  /** Rows of other events do not reach the grid. */
  lemma {:induction false} OtherEventsIgnored(rows: seq<Interaction>, e: Interaction)
    requires e.event != "click"
    ensures FetchClicks(rows + [e]) == FetchClicks(rows)
    ensures FetchClicks([e] + rows) == FetchClicks(rows)
  {
    if |rows| > 0 {
      assert (rows + [e])[1..] == rows[1..] + [e];
      OtherEventsIgnored(rows[1..], e);
    } else {
      assert rows + [e] == [e];
    }
    assert ([e] + rows)[1..] == rows;
  }

  /** The bounds test of `generate_heatmap`, on the raw coordinates. */
  predicate InBounds(c: Click) {
    0.0 <= c.x < Width as real && 0.0 <= c.y < Height as real
  }

  /** Whether click `c` is counted in cell (`row`, `col`): the cell is
      found with `int(...)`, which truncates toward zero; on the
      non-negative coordinates that pass the bounds test that is the floor. */
  predicate Lands(c: Click, row: int, col: int) {
    InBounds(c) && c.y.Floor == row && c.x.Floor == col
  }

  /** The number of clicks counted in cell (`row`, `col`). */
  function Hits(clicks: seq<Click>, row: int, col: int): nat {
    if |clicks| == 0 then 0
    else Hits(clicks[..|clicks| - 1], row, col) + (if Lands(clicks[|clicks| - 1], row, col) then 1 else 0)
  }

  /** The number of clicks that fall inside the grid. */
  function InBoundsCount(clicks: seq<Click>): nat {
    if |clicks| == 0 then 0
    else InBoundsCount(clicks[..|clicks| - 1]) + (if InBounds(clicks[|clicks| - 1]) then 1 else 0)
  }

  /** The click-binning loop of `generate_heatmap`: a zeroed grid of 1080
      rows and 1920 columns in which every cell ends up holding the number
      of clicks with exactly those coordinates. */
  method BinClicks(clicks: seq<Click>) returns (grid: array2<int>)
    ensures grid.Length0 == Height && grid.Length1 == Width
    ensures forall r, c :: 0 <= r < Height && 0 <= c < Width ==> grid[r, c] == Hits(clicks, r, c)
  {
    grid := new int[Height, Width]((r, c) => 0);
    var i := 0;
    while i < |clicks|
      invariant 0 <= i <= |clicks|
      invariant grid.Length0 == Height && grid.Length1 == Width
      invariant forall r, c :: 0 <= r < Height && 0 <= c < Width ==> grid[r, c] == Hits(clicks[..i], r, c)
    {
      var k := clicks[i];
      assert clicks[..i + 1][..i] == clicks[..i];
      if 0.0 <= k.x < Width as real && 0.0 <= k.y < Height as real {
        grid[k.y.Floor, k.x.Floor] := grid[k.y.Floor, k.x.Floor] + 1;
      }
      i := i + 1;
    }
    assert clicks[..|clicks|] == clicks;
  }

  /** One more click adds one to exactly the cell it lands in, and an
      out-of-bounds click changes no cell. */
  lemma OneClickOneCell(clicks: seq<Click>, k: Click, row: int, col: int)
    ensures Hits(clicks + [k], row, col) == Hits(clicks, row, col) + (if Lands(k, row, col) then 1 else 0)
    ensures !InBounds(k) ==> Hits(clicks + [k], row, col) == Hits(clicks, row, col)
  {
    assert (clicks + [k])[..|clicks|] == clicks;
  }

  /** The sum of the first `cols` cells of row `row`. */
  function RowTotal(clicks: seq<Click>, row: int, cols: nat): nat {
    if cols == 0 then 0 else RowTotal(clicks, row, cols - 1) + Hits(clicks, row, cols - 1)
  }

  /** The sum of all cells of the first `rows` rows. */
  function GridTotal(clicks: seq<Click>, rows: nat): nat {
    if rows == 0 then 0 else GridTotal(clicks, rows - 1) + RowTotal(clicks, rows - 1, Width)
  }

  lemma {:induction false} RowTotalStep(clicks: seq<Click>, k: Click, row: int, cols: nat)
    ensures RowTotal(clicks + [k], row, cols)
            == RowTotal(clicks, row, cols) + (if InBounds(k) && k.y.Floor == row && k.x.Floor < cols then 1 else 0)
  {
    if cols > 0 {
      RowTotalStep(clicks, k, row, cols - 1);
      OneClickOneCell(clicks, k, row, cols - 1);
    }
  }

  lemma {:induction false} GridTotalStep(clicks: seq<Click>, k: Click, rows: nat)
    ensures GridTotal(clicks + [k], rows)
            == GridTotal(clicks, rows) + (if InBounds(k) && k.y.Floor < rows then 1 else 0)
  {
    if rows > 0 {
      GridTotalStep(clicks, k, rows - 1);
      RowTotalStep(clicks, k, rows - 1, Width);
    }
  }

  /** The cells of the whole grid add up to the number of clicks inside
      the grid. */
  lemma {:induction false} GridTotalCountsInBounds(clicks: seq<Click>)
    ensures GridTotal(clicks, Height) == InBoundsCount(clicks)
  {
    if |clicks| == 0 {
      ZeroGrid(Height);
    } else {
      var init, k := clicks[..|clicks| - 1], clicks[|clicks| - 1];
      assert init + [k] == clicks;
      GridTotalCountsInBounds(init);
      GridTotalStep(init, k, Height);
    }
  }

  lemma {:induction false} ZeroGrid(rows: nat)
    ensures GridTotal([], rows) == 0
  {
    if rows > 0 {
      ZeroGrid(rows - 1);
      ZeroRow(rows - 1, Width);
    }
  }

  lemma {:induction false} ZeroRow(row: int, cols: nat)
    ensures RowTotal([], row, cols) == 0
  {
    if cols > 0 {
      ZeroRow(row, cols - 1);
    }
  }

  /** Whether log row `w` is a click counted in cell (`row`, `col`). */
  predicate ClickLands(w: Interaction, row: int, col: int) {
    IsClick(w) && Lands(Click(w.x, w.y), row, col)
  }

  /** The number of click rows of the log counted in cell (`row`, `col`). */
  function LoggedHits(rows: seq<Interaction>, row: int, col: int): nat {
    Count(rows, (w: Interaction) => ClickLands(w, row, col))
  }

  /** A click put in front adds one to exactly the cell it lands in. */
  lemma {:induction false} HitsPrepend(k: Click, clicks: seq<Click>, row: int, col: int)
    ensures Hits([k] + clicks, row, col) == (if Lands(k, row, col) then 1 else 0) + Hits(clicks, row, col)
    decreases |clicks|
  {
    if |clicks| > 0 {
      var init, last := clicks[..|clicks| - 1], clicks[|clicks| - 1];
      assert ([k] + clicks)[..|clicks|] == [k] + init;
      HitsPrepend(k, init, row, col);
    } else {
      assert ([k] + clicks)[..0] == [];
    }
  }

  /** The script end to end (`generate_heatmap(fetch_data())`): the count
      each cell receives is the number of click rows of the log whose
      coordinates land in it. */
  lemma {:induction false} ClicksLandAsLogged(rows: seq<Interaction>, row: int, col: int)
    ensures Hits(FetchClicks(rows), row, col) == LoggedHits(rows, row, col)
  {
    if |rows| > 0 {
      ClicksLandAsLogged(rows[1..], row, col);
      if IsClick(rows[0]) {
        HitsPrepend(Click(rows[0].x, rows[0].y), FetchClicks(rows[1..]), row, col);
      }
    }
  }

  /** The heatmap grid of an interaction log: every cell holds the number
      of click rows of the log that land in it. */
  method HeatmapOfLog(rows: seq<Interaction>) returns (grid: array2<int>)
    ensures grid.Length0 == Height && grid.Length1 == Width
    ensures forall r, c :: 0 <= r < Height && 0 <= c < Width ==> grid[r, c] == LoggedHits(rows, r, c)
  {
    var clicks := FetchClicks(rows);
    grid := BinClicks(clicks);
    forall r, c | 0 <= r < Height && 0 <= c < Width
      ensures Hits(clicks, r, c) == LoggedHits(rows, r, c)
    {
      ClicksLandAsLogged(rows, r, c);
    }
  }
}

=== FILE: outcomes.dfy ===
/** Option and Result types shared by every module. */
module Outcomes {

  /** A value that may be missing: an omitted request field, a row not found. */
  datatype Option<+T> = None | Some(value: T) {

    /** The wrapped value, or `default` when there is none. */
    function GetOr(default: T): T {
      match this
      case Some(v) => v
      case None => default
    }
  }

  /** Either the value an operation produced or the reason it refused. */
  datatype Result<+T, +E> = Success(value: T) | Failure(error: E)
}

=== FILE: queries.dfy ===
/** The listing endpoints: optional equality/lower-bound filters, then
    `.offset(skip).limit(limit)`. A string filter applies only when it is
    given and non-empty (an empty query string is falsy); the departure
    date filter applies whenever it is given. */
module Queries {
  import opened Outcomes
  import opened Rows
  import opened Store

  /** The default page size of every listing endpoint. */
  const DefaultLimit := 100

  /** Whether a string filter takes part in the query. */
  predicate Given(filter: Option<string>) {
    filter.Some? && filter.value != ""
  }

  datatype FlightFilter = FlightFilter(
    departureCode: Option<string>,
    destinationCode: Option<string>,
    departureDate: Option<int>)

  predicate FlightMatches(f: Flight, q: FlightFilter) {
    && (Given(q.departureCode) ==> f.departureCode == q.departureCode.value)
    && (Given(q.destinationCode) ==> f.destinationCode == q.destinationCode.value)
    && (q.departureDate.Some? ==> f.departureTime >= q.departureDate.value)
  }

  /** The flights that meet every given filter, in table order. */
  function MatchingFlights(db: Db, q: FlightFilter): seq<Flight> {
    Filter(db.flights, (f: Flight) => FlightMatches(f, q))
  }

  /** `read_flights`: the matching flights from the `skip`-th on (SQLite
      counts a negative offset as zero), in table order, `limit` of them or
      as many as remain (all that remain when `limit` is negative). Every
      flight returned is stored and meets each given filter. */
  function ReadFlights(db: Db, skip: int, limit: int, q: FlightFilter): (r: seq<Flight>)
    ensures var m := MatchingFlights(db, q);
            && (limit >= 0 ==> |r| == Min(limit, |m| - Start(|m|, skip)))
            && (limit < 0 ==> |r| == |m| - Start(|m|, skip))
            && forall i :: 0 <= i < |r| ==> r[i] == m[Start(|m|, skip) + i]
    ensures forall i :: 0 <= i < |r| ==> r[i] in db.flights
    ensures forall i :: 0 <= i < |r| ==> Given(q.departureCode) ==> r[i].departureCode == q.departureCode.value
    ensures forall i :: 0 <= i < |r| ==> Given(q.destinationCode) ==> r[i].destinationCode == q.destinationCode.value
    ensures forall i :: 0 <= i < |r| ==> q.departureDate.Some? ==> r[i].departureTime >= q.departureDate.value
    ensures skip <= 0 && limit < 0 ==> forall f :: f in db.flights && FlightMatches(f, q) ==> f in r
  {
    var matching := MatchingFlights(db, q);
    var r := Page(matching, skip, limit);
    assert forall i :: 0 <= i < |r| ==> r[i] in matching;
    r
  }

  /** An empty string filter is the same as no filter. */
  lemma EmptyFilterIgnored(db: Db, skip: int, limit: int, q: FlightFilter)
    requires q.departureCode == Some("") || q.destinationCode == Some("")
    ensures q.departureCode == Some("") ==>
              ReadFlights(db, skip, limit, q) == ReadFlights(db, skip, limit, q.(departureCode := None))
    ensures q.destinationCode == Some("") ==>
              ReadFlights(db, skip, limit, q) == ReadFlights(db, skip, limit, q.(destinationCode := None))
  {
    if q.departureCode == Some("") {
      var q' := q.(departureCode := None);
      FilterAgrees(db.flights, (f: Flight) => FlightMatches(f, q), (f: Flight) => FlightMatches(f, q'));
      assert MatchingFlights(db, q) == MatchingFlights(db, q');
    }
    if q.destinationCode == Some("") {
      var q' := q.(destinationCode := None);
      FilterAgrees(db.flights, (f: Flight) => FlightMatches(f, q), (f: Flight) => FlightMatches(f, q'));
      assert MatchingFlights(db, q) == MatchingFlights(db, q');
    }
  }

  /** Paging through the flights in steps of `n` visits the matching
      flights in table order without gaps or repeats. */
  lemma FlightPagesTile(db: Db, skip: nat, n: nat, m: nat, q: FlightFilter)
    ensures ReadFlights(db, skip, n, q) + ReadFlights(db, skip + n, m, q) == ReadFlights(db, skip, n + m, q)
  {
    PagesTile(MatchingFlights(db, q), skip, n, m);
  }

  /** `read_passengers`: the stored passengers from the `skip`-th on, in
      table order, `limit` of them or as many as remain (all that remain
      when `limit` is negative). */
  function ReadPassengers(db: Db, skip: int, limit: int): (r: seq<Passenger>)
    ensures var n := |db.passengers|;
            && (limit >= 0 ==> |r| == Min(limit, n - Start(n, skip)))
            && (limit < 0 ==> |r| == n - Start(n, skip))
    ensures Start(|db.passengers|, skip) + |r| <= |db.passengers|
    ensures forall i :: 0 <= i < |r| ==> r[i] == db.passengers[Start(|db.passengers|, skip) + i]
    ensures skip <= 0 && (limit < 0 || limit >= |db.passengers|) ==> r == db.passengers
  {
    Page(db.passengers, skip, limit)
  }

  /** Paging through the passengers in steps of `n` visits them in table
      order without gaps or repeats. */
  lemma PassengerPagesTile(db: Db, skip: nat, n: nat, m: nat)
    ensures ReadPassengers(db, skip, n) + ReadPassengers(db, skip + n, m) == ReadPassengers(db, skip, n + m)
  {
    PagesTile(db.passengers, skip, n, m);
  }

  predicate AirportMatches(a: Airport, countryCode: Option<string>) {
    Given(countryCode) ==> a.countryCode == countryCode.value
  }

  /** The airports of the given country (all airports when no country code
      is given), in table order. */
  function MatchingAirports(db: Db, countryCode: Option<string>): seq<Airport> {
    Filter(db.airports, (a: Airport) => AirportMatches(a, countryCode))
  }

  /** `read_airports`: the matching airports from the `skip`-th on, in
      table order, `limit` of them or as many as remain (all that remain
      when `limit` is negative). Every airport returned is stored and lies
      in the given country. */
  function ReadAirports(db: Db, countryCode: Option<string>, skip: int, limit: int): (r: seq<Airport>)
    ensures var m := MatchingAirports(db, countryCode);
            && (limit >= 0 ==> |r| == Min(limit, |m| - Start(|m|, skip)))
            && (limit < 0 ==> |r| == |m| - Start(|m|, skip))
            && forall i :: 0 <= i < |r| ==> r[i] == m[Start(|m|, skip) + i]
    ensures forall i :: 0 <= i < |r| ==> r[i] in db.airports
    ensures forall i :: 0 <= i < |r| ==> Given(countryCode) ==> r[i].countryCode == countryCode.value
    ensures skip <= 0 && limit < 0 ==> forall a :: a in db.airports && AirportMatches(a, countryCode) ==> a in r
  {
    var matching := MatchingAirports(db, countryCode);
    var r := Page(matching, skip, limit);
    assert forall i :: 0 <= i < |r| ==> r[i] in matching;
    r
  }

  /** An empty country code is the same as none. */
  lemma EmptyCountryIgnored(db: Db, skip: int, limit: int)
    ensures ReadAirports(db, Some(""), skip, limit) == ReadAirports(db, None, skip, limit)
  {
    FilterAgrees(db.airports, (a: Airport) => AirportMatches(a, Some("")), (a: Airport) => AirportMatches(a, None));
    assert MatchingAirports(db, Some("")) == MatchingAirports(db, None);
  }

  /** Paging through the airports in steps of `n` visits the matching
      airports in table order without gaps or repeats. */
  lemma AirportPagesTile(db: Db, countryCode: Option<string>, skip: nat, n: nat, m: nat)
    ensures ReadAirports(db, countryCode, skip, n) + ReadAirports(db, countryCode, skip + n, m)
            == ReadAirports(db, countryCode, skip, n + m)
  {
    PagesTile(MatchingAirports(db, countryCode), skip, n, m);
  }

  /** With the default paging a listing holds every matching row, in table
      order, when there are at most 100 of them, and otherwise exactly the
      first 100. */
  lemma DefaultPage(db: Db, q: FlightFilter, countryCode: Option<string>)
    ensures |MatchingFlights(db, q)| <= DefaultLimit ==> ReadFlights(db, 0, DefaultLimit, q) == MatchingFlights(db, q)
    ensures |MatchingFlights(db, q)| > DefaultLimit ==> ReadFlights(db, 0, DefaultLimit, q) == MatchingFlights(db, q)[..DefaultLimit]
    ensures |db.passengers| <= DefaultLimit ==> ReadPassengers(db, 0, DefaultLimit) == db.passengers
    ensures |db.passengers| > DefaultLimit ==> ReadPassengers(db, 0, DefaultLimit) == db.passengers[..DefaultLimit]
    ensures |MatchingAirports(db, countryCode)| <= DefaultLimit ==>
              ReadAirports(db, countryCode, 0, DefaultLimit) == MatchingAirports(db, countryCode)
    ensures |MatchingAirports(db, countryCode)| > DefaultLimit ==>
              ReadAirports(db, countryCode, 0, DefaultLimit) == MatchingAirports(db, countryCode)[..DefaultLimit]
  {
  }
}

=== FILE: rows.dfy ===
/** Table-row operations the ORM queries reduce to: `.first()` under a
    filter, `.filter(...)` and `.offset(skip).limit(limit)` on SQLite.
    Rows are kept in table order. */
module Rows {
  import opened Outcomes

  /** Index of the first row at or after `k` that satisfies `p`. */
  function FirstFrom<T>(rows: seq<T>, p: T -> bool, k: nat): (r: Option<nat>)
    requires k <= |rows|
    ensures r.Some? ==> k <= r.value < |rows| && p(rows[r.value])
    ensures r.Some? ==> forall j :: k <= j < r.value ==> !p(rows[j])
    ensures r.None? ==> forall j :: k <= j < |rows| ==> !p(rows[j])
    decreases |rows| - k
  {
    if k == |rows| then None
    else if p(rows[k]) then Some(k)
    else FirstFrom(rows, p, k + 1)
  }

  /** `query.filter(p).first()`: the position of the first matching row. */
  function First<T>(rows: seq<T>, p: T -> bool): (r: Option<nat>)
    ensures r.Some? ==> r.value < |rows| && p(rows[r.value])
    ensures r.Some? ==> forall j :: 0 <= j < r.value ==> !p(rows[j])
    ensures r.None? <==> forall j :: 0 <= j < |rows| ==> !p(rows[j])
  {
    FirstFrom(rows, p, 0)
  }

  /** `query.filter(p).all()`: the matching rows, in table order. */
  function Filter<T(!new)>(rows: seq<T>, p: T -> bool): (r: seq<T>)
    ensures |r| <= |rows|
    ensures forall i :: 0 <= i < |r| ==> p(r[i])
    ensures forall x :: x in r <==> x in rows && p(x)
  {
    if |rows| == 0 then []
    else
      var rest := Filter(rows[1..], p);
      assert forall x :: x in rows <==> x == rows[0] || x in rows[1..];
      if p(rows[0]) then [rows[0]] + rest else rest
  }

  /** Filtering distributes over concatenation, so the relative order of
      the kept rows is the order of the table. */
  lemma {:induction false} FilterAppend<T(!new)>(a: seq<T>, b: seq<T>, p: T -> bool)
    ensures Filter(a + b, p) == Filter(a, p) + Filter(b, p)
  {
    if |a| == 0 {
      assert a + b == b;
    } else {
      assert (a + b)[1..] == a[1..] + b;
      FilterAppend(a[1..], b, p);
    }
  }

  /** Filters that agree on every row keep the same rows. */
  lemma {:induction false} FilterAgrees<T(!new)>(rows: seq<T>, p: T -> bool, q: T -> bool)
    requires forall x :: p(x) == q(x)
    ensures Filter(rows, p) == Filter(rows, q)
  {
    if |rows| > 0 {
      FilterAgrees(rows[1..], p, q);
    }
  }

  /** The row number SQLite starts from for `OFFSET skip`: a negative
      offset counts as zero, and an offset past the end leaves nothing. */
  function Start(n: nat, skip: int): (o: nat)
    ensures o <= n
    ensures 0 <= skip <= n ==> o == skip
  {
    if skip <= 0 then 0 else if skip >= n then n else skip
  }

  /** `.offset(skip).limit(limit)` as SQLite runs it: drop the first `skip`
      rows, then keep at most `limit` (no bound when `limit` is negative). */
  function Page<T>(rows: seq<T>, skip: int, limit: int): (r: seq<T>)
    ensures limit >= 0 ==> |r| == Min(limit, |rows| - Start(|rows|, skip))
    ensures limit < 0 ==> |r| == |rows| - Start(|rows|, skip)
    ensures Start(|rows|, skip) + |r| <= |rows|
    ensures forall i :: 0 <= i < |r| ==> r[i] == rows[Start(|rows|, skip) + i]
  {
    var rest := rows[Start(|rows|, skip)..];
    if limit < 0 || limit >= |rest| then rest else rest[..limit]
  }

  function Min(a: int, b: int): int { if a <= b then a else b }

  /** Consecutive pages tile the table: the page of `n` rows at `skip`
      followed by the page of `m` rows at `skip + n` is the page of `n + m`
      rows at `skip`. */
  lemma PagesTile<T>(rows: seq<T>, skip: nat, n: nat, m: nat)
    ensures Page(rows, skip, n) + Page(rows, skip + n, m) == Page(rows, skip, n + m)
  {
    var a, b, c := Page(rows, skip, n), Page(rows, skip + n, m), Page(rows, skip, n + m);
    assert |a + b| == |c|;
    forall i | 0 <= i < |c|
      ensures (a + b)[i] == c[i]
    {
      if i >= |a| {
        assert b[i - |a|] == rows[Start(|rows|, skip + n) + i - |a|];
      }
    }
  }

  /** The number of rows that satisfy `p`. */
  function Count<T>(rows: seq<T>, p: T -> bool): (n: nat)
    ensures n <= |rows|
    ensures n == 0 <==> forall i :: 0 <= i < |rows| ==> !p(rows[i])
  {
    if |rows| == 0 then 0
    else
      var rest := Count(rows[1..], p);
      assert forall i :: 1 <= i < |rows| ==> rows[i] == rows[1..][i - 1];
      (if p(rows[0]) then 1 else 0) + rest
  }

  /** Appending a row adds one to the count exactly when the row counts. */
  lemma {:induction false} CountAppend<T>(rows: seq<T>, v: T, p: T -> bool)
    ensures Count(rows + [v], p) == Count(rows, p) + (if p(v) then 1 else 0)
  {
    if |rows| > 0 {
      assert (rows + [v])[1..] == rows[1..] + [v];
      CountAppend(rows[1..], v, p);
    }
  }

  /** Replacing one row changes the count by what the old row and the new
      row contribute. */
  lemma {:induction false} CountUpdate<T>(rows: seq<T>, k: nat, v: T, p: T -> bool)
    requires k < |rows|
    ensures Count(rows[k := v], p) == Count(rows, p) - (if p(rows[k]) then 1 else 0) + (if p(v) then 1 else 0)
  {
    if k > 0 {
      assert rows[k := v][1..] == rows[1..][k - 1 := v];
      CountUpdate(rows[1..], k - 1, v, p);
    }
  }
}

=== FILE: schemas.dfy ===
/** The request schemas of the flight backend: field constraints checked
    the way pydantic checks them, plus the schemas' own validators.

    A constrained string field is checked for `min_length`, then
    `max_length`, then `pattern`, and only the first failure of a field is
    reported; numeric fields are checked against their bound. Fields are
    checked in declaration order and every failing field contributes one
    error. A field's own validator runs only when the field passed its
    constraints, and it sees only the earlier fields that validated.
    Datetimes are modelled as integers; `None` stands for a value that
    could not be read as a datetime. */
module Schemas {
  import opened Outcomes
  import opened Text

  // ---------------------------------------------------------------------
  // Patterns and constrained strings
  // ---------------------------------------------------------------------

  /** The regular expressions the schemas use. */
  datatype Pattern =
    | Alphanumeric   // ^[A-Za-z0-9]+$
    | AirportCode    // ^[A-Z]{3}$
    | SeatNumber     // ^[0-9]+[A-Z]$
    | TicketClass    // ^(economy|premium economy|business|first)$
    | PaymentMethod  // ^(credit card|debit card|bank transfer|cash)$

  const TicketClasses: set<string> := {"economy", "premium economy", "business", "first"}
  const PaymentMethods: set<string> := {"credit card", "debit card", "bank transfer", "cash"}

  /** The language of each pattern, matched against the whole value. */
  predicate Matches(p: Pattern, s: string) {
    match p
    case Alphanumeric => |s| >= 1 && forall i :: 0 <= i < |s| ==> IsAlnum(s[i])
    case AirportCode => |s| == 3 && forall i :: 0 <= i < |s| ==> IsUpper(s[i])
    case SeatNumber =>
      && |s| >= 2
      && (forall i :: 0 <= i < |s| - 1 ==> IsDigit(s[i]))
      && IsUpper(s[|s| - 1])
    case TicketClass => s in TicketClasses
    case PaymentMethod => s in PaymentMethods
  }

  /** The length bounds and pattern of one `Field(...)`. */
  datatype StrConstraint = StrConstraint(minLength: nat, maxLength: Option<nat>, pattern: Option<Pattern>)

  /** Why one field was refused, after pydantic's error types. */
  datatype Rule =
    | TooShort(minLength: nat)
    | TooLong(maxLength: nat)
    | PatternMismatch(pattern: Pattern)
    | GreaterThan(bound: int)
    | GreaterThanEqual(bound: int)
    | LessThanEqual(bound: int)
    | NotDatetime
    | ValueError(message: string)

  /** One entry of a validation error: the field's name and its rule. */
  datatype FieldError = FieldError(field: string, rule: Rule)

  /** Whether `v` meets every part of the constraint. */
  predicate Satisfies(c: StrConstraint, v: string) {
    && c.minLength <= |v|
    && (c.maxLength.Some? ==> |v| <= c.maxLength.value)
    && (c.pattern.Some? ==> Matches(c.pattern.value, v))
  }

  /** The first rule of the constraint that `v` breaks, if any. */
  function CheckStr(c: StrConstraint, v: string): (r: Option<Rule>)
    ensures r.None? <==> Satisfies(c, v)
    ensures r == Some(TooShort(c.minLength)) <==> |v| < c.minLength
    ensures r.Some? && r.value.TooLong? ==>
              && c.minLength <= |v| && c.maxLength.Some? && |v| > c.maxLength.value
              && r.value.maxLength == c.maxLength.value
    ensures r.Some? && r.value.PatternMismatch? ==>
              c.minLength <= |v| && (c.maxLength.Some? ==> |v| <= c.maxLength.value)
    ensures r.Some? ==> r.value.TooShort? || r.value.TooLong? || r.value.PatternMismatch?
  {
    if |v| < c.minLength then Some(TooShort(c.minLength))
    else if c.maxLength.Some? && |v| > c.maxLength.value then Some(TooLong(c.maxLength.value))
    else if c.pattern.Some? && !Matches(c.pattern.value, v) then Some(PatternMismatch(c.pattern.value))
    else None
  }

  const UsernameField := StrConstraint(3, Some(50), None)
  const PasswordField := StrConstraint(8, Some(100), None)
  const FlightNumberField := StrConstraint(2, Some(10), Some(Alphanumeric))
  const AirportCodeField := StrConstraint(3, Some(3), Some(AirportCode))
  const SeatNumberField := StrConstraint(0, None, Some(SeatNumber))
  const TicketClassField := StrConstraint(0, None, Some(TicketClass))
  const PaymentMethodField := StrConstraint(0, None, Some(PaymentMethod))
  const CurrencyField := StrConstraint(3, Some(3), None)

  /** The error list one field contributes. */
  function Report(field: string, r: Option<Rule>): seq<FieldError> {
    if r.None? then [] else [FieldError(field, r.value)]
  }

  /** `Field(gt=bound)` */
  function MoreThan(field: string, x: real, bound: int): seq<FieldError> {
    if x > bound as real then [] else [FieldError(field, GreaterThan(bound))]
  }

  /** `Field(ge=bound)` */
  function AtLeast(field: string, x: real, bound: int): seq<FieldError> {
    if x >= bound as real then [] else [FieldError(field, GreaterThanEqual(bound))]
  }

  /** `Field(le=bound)` */
  function AtMost(field: string, x: real, bound: int): seq<FieldError> {
    if x <= bound as real then [] else [FieldError(field, LessThanEqual(bound))]
  }

  /** A datetime field that may not have parsed. */
  function Datetime(field: string, t: Option<int>): seq<FieldError> {
    if t.Some? then [] else [FieldError(field, NotDatetime)]
  }

  // ---------------------------------------------------------------------
  // Users
  // ---------------------------------------------------------------------

  /** The rules of the password validator, in the order it tries them. */
  datatype PasswordRule = MinLength | Uppercase | Lowercase | Digit

  function PasswordMessage(rule: PasswordRule): string {
    match rule
    case MinLength => "Password must be at least 8 characters"
    case Uppercase => "Password must contain at least one uppercase letter"
    case Lowercase => "Password must contain at least one lowercase letter"
    case Digit => "Password must contain at least one digit"
  }

  ghost predicate HasUpper(v: string) { exists i :: 0 <= i < |v| && IsUpper(v[i]) }
  ghost predicate HasLower(v: string) { exists i :: 0 <= i < |v| && IsLower(v[i]) }
  ghost predicate HasDigit(v: string) { exists i :: 0 <= i < |v| && IsDigit(v[i]) }

  /** `UserCreate.validate_password`: accepts exactly the strings of at
      least 8 characters with an upper-case letter, a lower-case letter and
      a digit, returns them unchanged, and otherwise names the first rule
      broken in the order length, upper-case, lower-case, digit. */
  function ValidatePassword(v: string): (r: Result<string, PasswordRule>)
    ensures r.Success? <==> |v| >= 8 && HasUpper(v) && HasLower(v) && HasDigit(v)
    ensures r.Success? ==> r.value == v
    ensures r == Failure(MinLength) <==> |v| < 8
    ensures r == Failure(Uppercase) <==> |v| >= 8 && !HasUpper(v)
    ensures r == Failure(Lowercase) <==> |v| >= 8 && HasUpper(v) && !HasLower(v)
    ensures r == Failure(Digit) <==> |v| >= 8 && HasUpper(v) && HasLower(v) && !HasDigit(v)
  {
    if |v| < 8 then Failure(MinLength)
    else if !Contains(v, IsUpper) then Failure(Uppercase)
    else if !Contains(v, IsLower) then Failure(Lowercase)
    else if !Contains(v, IsDigit) then Failure(Digit)
    else Success(v)
  }

  /** The whole `password` field: its length bounds, then the validator. */
  function CheckPassword(v: string): (r: Option<Rule>)
    ensures r.None? <==> StrongPassword(v)
    ensures r != Some(ValueError(PasswordMessage(MinLength)))
    ensures |v| < 8 ==> r == Some(TooShort(8))
    ensures |v| > 100 ==> r == Some(TooLong(100))
  {
    match CheckStr(PasswordField, v)
    case Some(rule) => Some(rule)
    case None =>
      match ValidatePassword(v)
      case Success(_) => None
      case Failure(rule) => Some(ValueError(PasswordMessage(rule)))
  }

  /** A password the registration schema accepts. */
  ghost predicate StrongPassword(v: string) {
    8 <= |v| <= 100 && HasUpper(v) && HasLower(v) && HasDigit(v)
  }

  /** The `UserCreate` request body; `email` is taken as given. */
  datatype UserCreate = UserCreate(username: string, email: string, password: string)

  /** Validation of a registration request. */
  function ValidateUserCreate(u: UserCreate): (r: Result<UserCreate, seq<FieldError>>)
    ensures r.Success? <==> 3 <= |u.username| <= 50 && StrongPassword(u.password)
    ensures r.Success? ==> r.value == u
    ensures r.Failure? ==> |r.error| > 0
  {
    var errors := Report("username", CheckStr(UsernameField, u.username))
                + Report("password", CheckPassword(u.password));
    if errors == [] then Success(u) else Failure(errors)
  }

  // ---------------------------------------------------------------------
  // Flights
  // ---------------------------------------------------------------------

  /** `FlightBase.validate_airport_codes`, after the field's constraints:
      accepts exactly three upper-case letters and returns them unchanged. */
  function ValidateAirportCode(v: string): (r: Result<string, Rule>)
    ensures r.Success? <==> Matches(AirportCode, v)
    ensures r.Success? ==> r.value == v
    ensures r.Failure? ==> r.error == (if |v| < 3 then TooShort(3) else if |v| > 3 then TooLong(3) else PatternMismatch(AirportCode))
  {
    match CheckStr(AirportCodeField, v)
    case Some(rule) => Failure(rule)
    case None =>
      UpperAsciiKeepsUpper(v);
      Success(UpperAscii(v))
  }

  /** Validating an accepted airport code again gives the same answer. */
  lemma AirportCodeIdempotent(v: string)
    requires ValidateAirportCode(v).Success?
    ensures ValidateAirportCode(ValidateAirportCode(v).value) == ValidateAirportCode(v)
  {
  }

  const ArrivalMessage := "Arrival must be after departure"

  /** `FlightBase.validate_arrival_time`: `departure` is the validated
      departure time when that field validated, `None` otherwise. */
  function ValidateArrival(departure: Option<int>, arrival: int): (r: Result<int, Rule>)
    ensures r.Success? <==> departure.None? || arrival > departure.value
    ensures r.Success? ==> r.value == arrival
    ensures r.Failure? ==> r.error == ValueError(ArrivalMessage)
  {
    if departure.Some? && arrival <= departure.value then Failure(ValueError(ArrivalMessage))
    else Success(arrival)
  }

  /** The `FlightCreate` request body as received. */
  datatype FlightInput = FlightInput(
    flightNumber: string,
    departureCode: string,
    destinationCode: string,
    departureTime: Option<int>,
    arrivalTime: Option<int>,
    totalSeats: int,
    availableSeats: int,
    airlineId: Option<int>)

  /** A validated `FlightCreate`. */
  datatype FlightCreate = FlightCreate(
    flightNumber: string,
    departureCode: string,
    destinationCode: string,
    departureTime: int,
    arrivalTime: int,
    totalSeats: int,
    availableSeats: int,
    airlineId: Option<int>)

  function CodeErrors(field: string, v: string): seq<FieldError> {
    match ValidateAirportCode(v)
    case Success(_) => []
    case Failure(rule) => [FieldError(field, rule)]
  }

  function ArrivalErrors(departure: Option<int>, arrival: Option<int>): seq<FieldError> {
    match arrival
    case None => [FieldError("arrival_time", NotDatetime)]
    case Some(a) =>
      match ValidateArrival(departure, a)
      case Success(_) => []
      case Failure(rule) => [FieldError("arrival_time", rule)]
  }

  function FlightErrors(f: FlightInput): seq<FieldError> {
    Report("flight_number", CheckStr(FlightNumberField, f.flightNumber))
    + CodeErrors("departure_code", f.departureCode)
    + CodeErrors("destination_code", f.destinationCode)
    + Datetime("departure_time", f.departureTime)
    + ArrivalErrors(f.departureTime, f.arrivalTime)
    + MoreThan("total_seats", f.totalSeats as real, 0)
    + AtLeast("available_seats", f.availableSeats as real, 0)
  }

  /** What `FlightBase` demands. There is deliberately no bound tying
      `availableSeats` to `totalSeats`. */
  predicate ValidFlight(f: FlightInput) {
    && 2 <= |f.flightNumber| <= 10
    && Matches(Alphanumeric, f.flightNumber)
    && Matches(AirportCode, f.departureCode)
    && Matches(AirportCode, f.destinationCode)
    && f.departureTime.Some?
    && f.arrivalTime.Some?
    && f.arrivalTime.value > f.departureTime.value
    && f.totalSeats > 0
    && f.availableSeats >= 0
  }

  /** Validation of a flight request: it succeeds exactly on valid flights
      and then passes every field through unchanged. */
  function ValidateFlight(f: FlightInput): (r: Result<FlightCreate, seq<FieldError>>)
    ensures r.Success? <==> ValidFlight(f)
    ensures r.Success? ==> r.value == FlightCreate(
              f.flightNumber, f.departureCode, f.destinationCode,
              f.departureTime.value, f.arrivalTime.value,
              f.totalSeats, f.availableSeats, f.airlineId)
    ensures r.Failure? ==> |r.error| > 0
  {
    var errors := FlightErrors(f);
    if errors == [] then
      Success(FlightCreate(
        f.flightNumber, f.departureCode, f.destinationCode,
        f.departureTime.value, f.arrivalTime.value,
        f.totalSeats, f.availableSeats, f.airlineId))
    else Failure(errors)
  }

  /** An arrival at or before a departure that validated is refused with
      the validator's message. */
  lemma ArrivalNotAfterDepartureRejected(f: FlightInput)
    requires f.departureTime.Some? && f.arrivalTime.Some?
    requires f.arrivalTime.value <= f.departureTime.value
    ensures ValidateFlight(f).Failure?
    ensures FieldError("arrival_time", ValueError(ArrivalMessage)) in ValidateFlight(f).error
  {
    assert ArrivalErrors(f.departureTime, f.arrivalTime) == [FieldError("arrival_time", ValueError(ArrivalMessage))];
  }

  /** When the departure time did not validate, the arrival validator has
      nothing to compare with and does not complain. */
  lemma ArrivalCheckNeedsDeparture(f: FlightInput)
    requires f.departureTime.None? && f.arrivalTime.Some?
    ensures FieldError("arrival_time", ValueError(ArrivalMessage)) !in FlightErrors(f)
    ensures FieldError("departure_time", NotDatetime) in FlightErrors(f)
  {
    assert ArrivalErrors(f.departureTime, f.arrivalTime) == [];
    var a := Report("flight_number", CheckStr(FlightNumberField, f.flightNumber))
      + CodeErrors("departure_code", f.departureCode)
      + CodeErrors("destination_code", f.destinationCode);
    assert forall e :: e in a ==> e.field != "arrival_time";
  }

  /** The schema accepts more available seats than total seats. */
  lemma AvailableMayExceedTotal()
    ensures ValidateFlight(FlightInput("AB12", "JFK", "LHR", Some(0), Some(1), 1, 5, None)).Success?
  {
    assert Matches(Alphanumeric, "AB12") by {
      assert IsAlnum("AB12"[0]) && IsAlnum("AB12"[1]) && IsAlnum("AB12"[2]) && IsAlnum("AB12"[3]);
    }
    assert Matches(AirportCode, "JFK") by {
      assert IsUpper("JFK"[0]) && IsUpper("JFK"[1]) && IsUpper("JFK"[2]);
    }
    assert Matches(AirportCode, "LHR") by {
      assert IsUpper("LHR"[0]) && IsUpper("LHR"[1]) && IsUpper("LHR"[2]);
    }
  }

  // ---------------------------------------------------------------------
  // Reservations, tickets, payments, promotions
  // ---------------------------------------------------------------------

  const DefaultReservationStatus := "Pending"
  const DefaultTicketStatus := "active"
  const DefaultPaymentStatus := "pending"

  /** The `ReservationCreate` request body; `None` is an omitted field. */
  datatype ReservationInput = ReservationInput(
    passengerId: int, flightId: int, seatNumber: string,
    status: Option<string>, bookingAgentId: Option<string>)

  datatype ReservationCreate = ReservationCreate(
    passengerId: int, flightId: int, seatNumber: string,
    status: string, bookingAgentId: Option<string>)

  /** Validation of a reservation request: the seat number must be digits
      followed by one upper-case letter; an omitted status is "Pending". */
  function ValidateReservation(i: ReservationInput): (r: Result<ReservationCreate, seq<FieldError>>)
    ensures r.Success? <==> Matches(SeatNumber, i.seatNumber)
    ensures r.Failure? ==> r.error == [FieldError("seat_number", PatternMismatch(SeatNumber))]
    ensures r.Success? ==> r.value.status == (if i.status.Some? then i.status.value else "Pending")
    ensures r.Success? ==> && r.value.passengerId == i.passengerId && r.value.flightId == i.flightId
                           && r.value.seatNumber == i.seatNumber && r.value.bookingAgentId == i.bookingAgentId
  {
    var errors := Report("seat_number", CheckStr(SeatNumberField, i.seatNumber));
    if errors == [] then
      Success(ReservationCreate(i.passengerId, i.flightId, i.seatNumber,
                                i.status.GetOr(DefaultReservationStatus), i.bookingAgentId))
    else Failure(errors)
  }

  /** The `TicketCreate` request body. */
  datatype TicketInput = TicketInput(
    passengerId: int, flightId: int, seatNumber: string, ticketClass: string,
    reservationId: int, status: Option<string>, isChangeable: Option<bool>,
    isRefundable: Option<bool>, promotionId: Option<string>)

  datatype TicketCreate = TicketCreate(
    passengerId: int, flightId: int, seatNumber: string, ticketClass: string,
    reservationId: int, status: string, isChangeable: Option<bool>,
    isRefundable: Option<bool>, promotionId: Option<string>)

  /** Validation of a ticket request: the class must be one of the four
      fare classes; an omitted status is "active". */
  function ValidateTicket(i: TicketInput): (r: Result<TicketCreate, seq<FieldError>>)
    ensures r.Success? <==> i.ticketClass in {"economy", "premium economy", "business", "first"}
    ensures r.Success? ==> r.value.status == (if i.status.Some? then i.status.value else "active")
    ensures r.Success? ==> && r.value.ticketClass == i.ticketClass && r.value.reservationId == i.reservationId
                           && r.value.seatNumber == i.seatNumber && r.value.passengerId == i.passengerId
                           && r.value.flightId == i.flightId
    ensures r.Success? ==> && r.value.isChangeable == i.isChangeable && r.value.isRefundable == i.isRefundable
                           && r.value.promotionId == i.promotionId
    ensures r.Failure? ==> r.error == [FieldError("ticket_class", PatternMismatch(TicketClass))]
  {
    var errors := Report("ticket_class", CheckStr(TicketClassField, i.ticketClass));
    if errors == [] then
      Success(TicketCreate(i.passengerId, i.flightId, i.seatNumber, i.ticketClass, i.reservationId,
                           i.status.GetOr(DefaultTicketStatus), i.isChangeable, i.isRefundable,
                           i.promotionId))
    else Failure(errors)
  }

  /** The `PaymentCreate` request body; `amount` is a decimal. */
  datatype PaymentInput = PaymentInput(
    amount: real, payMethod: string, reservationId: int, currency: string,
    status: Option<string>, transactionId: Option<string>)

  datatype PaymentCreate = PaymentCreate(
    amount: real, payMethod: string, reservationId: int, currency: string,
    status: string, transactionId: Option<string>)

  /** Validation of a payment request: positive amount, one of the four
      methods, a three-character currency; an omitted status is "pending". */
  function ValidatePayment(i: PaymentInput): (r: Result<PaymentCreate, seq<FieldError>>)
    ensures r.Success? <==> && i.amount > 0.0
                            && i.payMethod in {"credit card", "debit card", "bank transfer", "cash"}
                            && |i.currency| == 3
    ensures r.Success? ==> r.value.status == (if i.status.Some? then i.status.value else "pending")
    ensures r.Success? ==> && r.value.amount == i.amount && r.value.payMethod == i.payMethod
                           && r.value.currency == i.currency && r.value.reservationId == i.reservationId
                           && r.value.transactionId == i.transactionId
  {
    var errors := MoreThan("amount", i.amount, 0)
                + Report("method", CheckStr(PaymentMethodField, i.payMethod))
                + Report("currency", CheckStr(CurrencyField, i.currency));
    if errors == [] then
      Success(PaymentCreate(i.amount, i.payMethod, i.reservationId, i.currency,
                            i.status.GetOr(DefaultPaymentStatus), i.transactionId))
    else Failure(errors)
  }

  /** The `PromotionCreate` request body; the decimals are reals. */
  datatype PromotionInput = PromotionInput(
    description: string, discountPercentage: real, startDate: Option<int>,
    endDate: Option<int>, promoCode: string, minPurchase: real,
    maxDiscount: real, usageLimit: int)

  datatype PromotionCreate = PromotionCreate(
    description: string, discountPercentage: real, startDate: int,
    endDate: int, promoCode: string, minPurchase: real,
    maxDiscount: real, usageLimit: int)

  /** Validation of a promotion request: the discount is a percentage in
      [0, 100], the amounts are not negative and the usage limit is
      positive. No order between start and end date is demanded. */
  function ValidatePromotion(i: PromotionInput): (r: Result<PromotionCreate, seq<FieldError>>)
    ensures r.Success? <==> && 0.0 <= i.discountPercentage <= 100.0
                            && i.startDate.Some? && i.endDate.Some?
                            && i.minPurchase >= 0.0 && i.maxDiscount >= 0.0
                            && i.usageLimit > 0
    ensures r.Success? ==> && r.value.discountPercentage == i.discountPercentage
                           && r.value.usageLimit == i.usageLimit
                           && r.value.maxDiscount == i.maxDiscount
                           && r.value.minPurchase == i.minPurchase
    ensures r.Success? ==> && r.value.description == i.description && r.value.promoCode == i.promoCode
                           && r.value.startDate == i.startDate.value && r.value.endDate == i.endDate.value
  {
    var errors := AtLeast("discount_percentage", i.discountPercentage, 0)
                + AtMost("discount_percentage", i.discountPercentage, 100)
                + Datetime("start_date", i.startDate)
                + Datetime("end_date", i.endDate)
                + AtLeast("min_purchase", i.minPurchase, 0)
                + AtLeast("max_discount", i.maxDiscount, 0)
                + MoreThan("usage_limit", i.usageLimit as real, 0);
    if errors == [] then
      Success(PromotionCreate(i.description, i.discountPercentage, i.startDate.value,
                              i.endDate.value, i.promoCode, i.minPurchase,
                              i.maxDiscount, i.usageLimit))
    else Failure(errors)
  }
}

=== FILE: store.dfy ===
/** The rows the backend's endpoints read and write, and the store that
    holds them. Each table is a sequence in storage (rowid) order: SQLite
    promises no order without ORDER BY, and the model takes the order a
    full table scan returns. */
module Store {
  import opened Outcomes
  import opened Schemas

  /** A registered account: the digest of its password and the salt used. */
  datatype User = User(username: string, email: string, hashedPassword: string, salt: string)

  datatype Flight = Flight(
    id: int,
    flightNumber: string,
    departureCode: string,
    destinationCode: string,
    departureTime: int,
    arrivalTime: int,
    totalSeats: int,
    availableSeats: int)

  datatype Passenger = Passenger(id: int, name: string)

  datatype Seat = Seat(id: int, flightId: int, seatNumber: string, isAvailable: bool)

  datatype Reservation = Reservation(
    id: int,
    passengerId: int,
    flightId: int,
    seatNumber: string,
    status: string,
    bookingAgentId: Option<string>,
    createdAt: int)

  datatype Ticket = Ticket(
    id: int,
    reservationId: int,
    passengerId: int,
    flightId: int,
    seatNumber: string,
    ticketClass: string,
    status: string,
    isChangeable: Option<bool>,
    isRefundable: Option<bool>,
    promotionId: Option<string>)

  datatype Airport = Airport(code: string, name: string, countryCode: string, terminals: int)

  /** The database the endpoints share. */
  datatype Db = Db(
    users: seq<User>,
    flights: seq<Flight>,
    passengers: seq<Passenger>,
    seats: seq<Seat>,
    reservations: seq<Reservation>,
    tickets: seq<Ticket>,
    airports: seq<Airport>)

  /** Why an endpoint refused a request. */
  datatype Reason =
    | InvalidRequest(errors: seq<FieldError>)
    | BadCredentials
    | UsernameTaken
    | EmailTaken
    | StorageFailure
    | FlightNotFound
    | PassengerNotFound
    | SeatNotAvailable
    | ReservationNotFound

  /** The HTTP status each refusal is answered with. */
  function StatusCode(r: Reason): nat {
    match r
    case InvalidRequest(_) => 422
    case BadCredentials => 401
    case UsernameTaken => 400
    case EmailTaken => 400
    case StorageFailure => 400
    case FlightNotFound => 404
    case PassengerNotFound => 404
    case SeatNotAvailable => 400
    case ReservationNotFound => 404
  }

  /** The fixed `detail` text of a refusal, if it has one. A refused body's
      detail is its list of field errors (carried by `InvalidRequest`), and
      a storage failure's is the database's own message, which is not
      modelled. The username and email refusals are raised inside the `try`
      block of `register_user`, caught by its own `except Exception` and
      raised again with `detail=str(e)`; the string form of an HTTP
      exception is "<status>: <detail>", so the status stands in front of
      the message. */
  function Detail(r: Reason): Option<string> {
    match r
    case InvalidRequest(_) => None
    case BadCredentials => Some("Incorrect username or password")
    case UsernameTaken => Some("400: Username already registered")
    case EmailTaken => Some("400: Email already registered")
    case StorageFailure => None
    case FlightNotFound => Some("Flight not found")
    case PassengerNotFound => Some("Passenger not found")
    case SeatNotAvailable => Some("Seat not available")
    case ReservationNotFound => Some("Reservation not found")
  }

  /** What an endpoint leaves behind: the store after the request (after
      rollback when it failed) and its answer. */
  datatype Reply<T> = Reply(db: Db, result: Result<T, Reason>)
}

=== FILE: text.dfy ===
/** Character classes and whole-string scans over `string` (= `seq<char>`). */
module Text {

  /** `[A-Z]` */
  predicate IsUpper(c: char) { 'A' <= c <= 'Z' }

  /** `[a-z]` */
  predicate IsLower(c: char) { 'a' <= c <= 'z' }

  /** `[0-9]` */
  predicate IsDigit(c: char) { '0' <= c <= '9' }

  /** `[A-Za-z0-9]` */
  predicate IsAlnum(c: char) { IsUpper(c) || IsLower(c) || IsDigit(c) }

  /** Whether some character of `s` is in `member`: what `re.search` answers
      for a pattern that is a single character class. */
  function Contains(s: string, member: char -> bool): (found: bool)
    ensures found <==> exists i :: 0 <= i < |s| && member(s[i])
  {
    if |s| == 0 then false
    else if member(s[0]) then true
    else
      var rest := Contains(s[1..], member);
      assert forall i :: 1 <= i < |s| ==> s[i] == s[1..][i - 1];
      rest
  }

  /** ASCII upper-casing of one character. */
  function UpperChar(c: char): (u: char)
    ensures IsLower(c) ==> IsUpper(u) && u as int == c as int - 32
    ensures !IsLower(c) ==> u == c
  {
    if IsLower(c) then (c as int - 32) as char else c
  }

  /** `str.upper()` restricted to ASCII letters: lower-case letters become
      upper-case, everything else is kept, and the length is unchanged. */
  function UpperAscii(s: string): (u: string)
    ensures |u| == |s|
    ensures forall i :: 0 <= i < |s| ==> !IsLower(u[i])
    ensures forall i :: 0 <= i < |s| && !IsLower(s[i]) ==> u[i] == s[i]
  {
    seq(|s|, i requires 0 <= i < |s| => UpperChar(s[i]))
  }

  /** Upper-casing leaves a string without lower-case letters as it is. */
  lemma UpperAsciiKeepsUpper(s: string)
    requires forall i :: 0 <= i < |s| ==> !IsLower(s[i])
    ensures UpperAscii(s) == s
  {
  }

  /** Upper-casing twice is upper-casing once. */
  lemma UpperAsciiIdempotent(s: string)
    ensures UpperAscii(UpperAscii(s)) == UpperAscii(s)
  {
    UpperAsciiKeepsUpper(UpperAscii(s));
  }
}
